=== FILE: README.md ===
# Borrowing lifecycle of the library service, in Dafny

This project models the borrowing core of a small library-rental backend.
Books carry a count of copies on the shelf. A borrowing records who took which
book, the day it was taken, the day it is due back and, once returned, the day
it came back. Four operations act on that state:

- **create**: refused when the book has no copy left; otherwise one transaction
  inserts the borrowing for the caller and takes one copy off the shelf;
- **return through the detail serializer**: refused when already returned;
  otherwise stores the supplied return date and puts one copy back. No HTTP
  route runs it; it is reachable only from code;
- **return through the `return` endpoint**: refused when already returned;
  otherwise stamps today's date, and touches no stock;
- **listing**: scoped by staff status and by the `is_active` and `user_id`
  query parameters. An unfiltered staff listing is served from a per-process
  snapshot (see Findings).

Dates are integer day numbers. "Today" is a parameter of every operation that
reads the clock. The state is a value (`Db.Library`): books and borrowings in
maps keyed by primary key, and the next borrowing key. Every operation is a
pure function that returns either the new state or an error. A refused
operation writes nothing, as its transaction is rolled back.

Modules follow the source files:

- `Books` covers `books/models.py`: cover codes, the fee column, the display string.
- `Borrowings` covers `borrowings/models.py`: the record, its check
  constraints, `validate_inventory`, `clean`, `full_clean` and the display string.
- `Db` holds the stored state and the two saves.
- `Serializers` covers `borrowings/serializers.py`.
- `Views` covers `borrowings/views.py`.
- `Lifecycle` runs sequences of requests and proves the invariants.
- `Numerals` provides decimal printing and parsing. `Wrappers` provides `Option` and `Result`.

Three behaviours of the code are modelled as written:

- The `return` endpoint validates through the detail serializer but never calls
  `serializer.save()`. So `BorrowingDetailSerializer.update` does not run on
  that path and the book is not restocked (`Views.ReturnBorrowing`,
  `Lifecycle.Scenario`).
- No route runs `BorrowingDetailSerializer.update` at all. The view set mixes
  in create, retrieve and list only, with no update action, and the `return`
  action never saves the serializer. So in the deployed service no request
  ever puts a copy back. The serializer return is modelled because the code
  defines it, but it is reachable only from code (`Lifecycle.SerializerReturnOp`).
- `update` with no date in the request keeps the borrowing open, but still adds
  a copy. It can therefore be repeated, adding a copy each time
  (`Serializers.ReturnWithoutDateRepeats`).

Three further facts about the code, which the model follows:

- The `return` endpoint ignores any date in the request body, stamps today's
  date and does not restock.
- The fee column has no sign constraint, so the model bounds only its digits.
- A return date before the borrow date fails the `return_date_gte_borrow_date`
  check constraint inside `full_clean`. The model reports it as
  `ValidationFailed({ReturnDateBeforeBorrowDate})`.

## Model

| member | source | states |
|---|---|---|
| Numerals.NatToString | books/models.py:29 | the copy count is printed as decimal digits only, with no leading zero |
| Numerals.ParseInt | borrowings/views.py:48-50 | a `user_id` value is read as an integer exactly when it is a non-empty string of decimal digits, optionally after a '-' |
| Numerals.ParseIntLeadingZeros | borrowings/views.py:48-50 | for every count of leading zeros and every value, the zero-padded spelling reads as that value, with or without a minus sign ("007" is 7, "-0" is 0), as Python's `int()` reads it |
| Numerals.IntRoundTrip | borrowings/views.py:48-50 | any user id printed in decimal and passed back as `user_id` reads as that same id |
| Books.ParseCover | books/models.py:5-20 | a stored cover code reads back as the choice with that code; every other string is no choice |
| Books.CoverCodes | books/models.py:5-7 | SOFT is stored as "1" and HARD as "2": distinct codes and labels that fit the 2-character column and read back |
| Books.FeeFitsRange | books/models.py:8-12 | a fee fits 8 digits with 2 decimal places exactly when its number of hundredths is strictly between -10^8 and 10^8 |
| Books.BookString | books/models.py:28-29 | the display string starts with "<title> - <author> : ", is followed by exactly as many characters as the count's decimal form plus " pcs", and the exact copy count reads back from it |
| Borrowings.UnavailableMessage | borrowings/models.py:48-53 | the stock error message names the book by its title |
| Borrowings.ValidateInventory | borrowings/models.py:45-53 | the stock check refuses exactly when inventory <= 0, with the book's message, and passes otherwise |
| Borrowings.Clean | borrowings/models.py:55-57 | `clean` refuses only a new record (no primary key) whose book has no copy left |
| Borrowings.FullClean | borrowings/models.py:27-43 | validation collects each failing check constraint and the stock error; it is empty exactly when both constraints hold and, for a new record, a copy is left |
| Borrowings.FullCleanEnforcesConstraints | borrowings/models.py:27-42 | a record that passed validation has borrow <= expected <= borrow + 14 days and any actual return date >= borrow |
| Borrowings.BorrowingString | borrowings/models.py:71-72 | a borrowing prints as the book's display string, then exactly " borrowed by ", then the user's string |
| Db.SaveBook | books/models.py:13-15 | a book row is written exactly when the model's column conditions hold: non-negative inventory (enforced on every database), plus fee digits and name lengths (database-dependent, see Left out); nothing else changes; validity is kept |
| Db.SaveBorrowing | borrowings/models.py:59-69 | every save validates first: it writes exactly when the book exists, both constraints hold and, for an insert, a copy is left; an insert takes the next key |
| Db.ResaveIgnoresStock | borrowings/models.py:55-57 | re-saving a stored borrowing succeeds and changes nothing, even when its book has no copy left |
| Serializers.ValidateCreate | borrowings/serializers.py:77-80 | create validation passes exactly when the book exists and has a copy, and raises the book's stock error otherwise |
| Serializers.Create | borrowings/serializers.py:82-94 | in a valid state a create succeeds exactly when the book has a copy and the due date is within 14 days from today; on success it inserts the open borrowing for the caller under the next key and takes exactly one copy off that book only |
| Serializers.CreatePreservesValid | borrowings/serializers.py:82-94 | a successful create keeps every stored-state invariant and uses a key no borrowing had |
| Serializers.ValidateReturn | borrowings/serializers.py:44-50 | return validation refuses exactly the borrowings that already have a return date |
| Serializers.WithReturnDate | borrowings/serializers.py:54-57 | `update` takes the supplied date or keeps the current one, and no other field changes |
| Serializers.Update | borrowings/serializers.py:52-65 | in a valid state `update` succeeds exactly when no date or a date on or after the borrow date is supplied; it rewrites only that borrowing and adds exactly one copy to its book |
| Serializers.ReturnViaSerializer | borrowings/serializers.py:44-65 | a returned borrowing is refused with AlreadyReturned; an open one is updated as above |
| Serializers.CreateThenReturnRestoresStock | borrowings/serializers.py:53-94 | a create followed by a serializer return of that borrowing restores every book's stock to its value before the create |
| Serializers.ReturnWithDateCloses | borrowings/serializers.py:44-57 | after a return with a date, the borrowing carries that date and any further serializer return is refused |
| Serializers.ReturnWithoutDateRepeats | borrowings/serializers.py:53-64 | a return without a date leaves the borrowing open, so it can be repeated, adding two copies in two calls |
| Views.FilterBorrowings | borrowings/views.py:39-51 | the filter fails only for a staff caller with a non-numeric `user_id`; otherwise it keeps exactly the records the request is shown, unchanged |
| Views.FilterIdempotent | borrowings/views.py:39-51 | filtering an already filtered set again gives the same set |
| Views.VisibleBorrowings | borrowings/views.py:36-37 | filtering the query set a second time, as the framework does after `get_queryset`, equals filtering once |
| Views.NonStaffSeesOwn | borrowings/views.py:45-46 | a non-staff caller is shown exactly their own borrowings, whatever `user_id` they pass |
| Views.StaffSeesAll | borrowings/views.py:43-51 | for a staff caller with neither `user_id` nor `is_active` the filter returns its input unchanged |
| Views.StaffFiltersByUser | borrowings/views.py:47-50 | a staff caller passing a user's id is shown exactly that user's borrowings |
| Views.IsActiveFalseStillFilters | borrowings/views.py:41-44 | `is_active=False`, like any non-empty value, keeps only open borrowings |
| Views.FreshListing | borrowings/views.py:39-51 | a listing read from the current state holds exactly the stored borrowings the request is shown; `list` gives this whenever the filter narrows the query set |
| Views.ListBorrowings | borrowings/views.py:26-37 | `list` as written: a narrowed listing is fresh; an unfiltered staff listing shows the current rows the first time in a process and the cached snapshot ever after |
| Views.StaleStaffListing | borrowings/views.py:26-37 | after an unfiltered staff listing and a successful create, the same listing again returns the first result, without the new borrowing, while a fresh listing shows it |
| Views.FreshListingShowsCreate | borrowings/views.py:43-51 | read fresh, an unfiltered staff listing after a create is every stored borrowing, including the new one |
| Views.GetObject | borrowings/views.py:84 | the lookup finds a borrowing exactly when it exists and the request is shown it; otherwise not found |
| Views.PerformCreate | borrowings/views.py:65-67 | a created borrowing belongs to the requesting user and is the open record for the requested book and due date |
| Views.ReturnBorrowing | borrowings/views.py:75-94 | the endpoint refuses a borrowing not shown to the caller or already returned; otherwise it sets the return date to today, changes nothing else and leaves all stock as it was |
| Views.ReturnIgnoresBody | borrowings/views.py:86-89 | the date in the request body has no effect on the endpoint's outcome |
| Views.NonStaffCannotReturnOthers | borrowings/views.py:84 | a non-staff caller returning another user's borrowing gets not found |
| Lifecycle.ApplyPreservesValid | borrowings/models.py:59-69 | every request keeps the stored state valid and only evolves it: no borrowing lost, fixed fields unchanged, closed records frozen |
| Lifecycle.RunPreservesValid | borrowings/models.py:27-43 | over any sequence of requests every stored borrowing satisfies both check constraints and every book a non-negative count |
| Lifecycle.StockNeverNegative | books/models.py:13-15 | no sequence of requests stores a negative copy count |
| Lifecycle.ClosedAtMostOnce | borrowings/serializers.py:44-50 | once a borrowing has a return date, no later request changes its record: open to closed happens at most once |
| Lifecycle.CreateOutOfStockChangesNothing | borrowings/serializers.py:77-80 | a create for a book with no copy left leaves the whole state unchanged |
| Lifecycle.Scenario | borrowings/serializers.py:44-94 | five copies: a 12-day create leaves four; a 20-day create is refused by the two-week constraint; a serializer return puts the fifth back and a second is refused; the endpoint return leaves four |

## Left out

- Notification after a create (`notify_borrowing`, `borrowings/telegram_api.py`): a synchronous network send after the create commits. Telegram API errors are swallowed. Any other failure fails the response but leaves the committed create in place. Either way it has no effect on the stored state.
- Admin display configuration, the book serializer's field list, response status codes, authentication, schema decorators and URL routing: framework configuration with no behaviour of the core.
- Concurrency: the code uses `transaction.atomic` without row locks, and the model runs requests one after another. It makes no claim about concurrent creates or returns.
- Request parsing by the framework: the model takes already-parsed dates and keys. A malformed or missing date in a body, and the exact messages of field errors, are not modelled. An unknown book key is reported as `UnknownBook`.
- The retrieve action and response representations (string-related fields, serializer output): read-only. The model keeps only the lookup they share (`Views.GetObject`).
- Ordering inside Django's insert: the borrow date is filled in after validation, so for a bad due date the database check rather than validation refuses the insert. The model validates an insert with the borrow date set to today, and the outcome (refused, nothing written) is the same. The distinction between the framework's and the model layer's validation error is not kept.
- The user model is not part of this model. Users are integer ids, and the user's display string is a parameter of `Borrowings.BorrowingString`.
- Numerals.ParseInt: Python's `int()` also accepts a leading '+', surrounding whitespace, digit-group underscores and non-ASCII Unicode decimal digits (such as "１２" or "١٢", both read as 12) in `user_id`. The model refuses those, so it reports a bad user id where the code would filter.
- Db.SaveBook: `Book.save` runs no validation, so only the database decides what a book row may hold. The model refuses a row unless it satisfies all of `ValidBook`. Only the non-negative inventory check of the positive-integer column holds on every database. The name-length and fee-digit conditions depend on the database (SQLite stores both unchecked), and so does the inventory upper bound, which the model leaves out, so increments are unbounded. The modelled operations only change inventory by one. So no state reachable through the HTTP routes depends on these choices, since through the routes counts only go down. Repeated undated serializer returns, reachable only from code, raise a count without bound (`Serializers.ReturnWithoutDateRepeats`). Along that path the missing upper bound matters.
- Books.ParseCover: the cover choices are not checked by `Book.save`, which runs no validation, and the database does not enforce them. The model's `Cover` type admits only the two choices.
- Deleting books or users (cascading deletes) is outside the borrowing code and not modelled.

## Findings

| source | as written | input that shows it | evidently intended | confidence | as-written member | corrected member |
|---|---|---|---|---|---|---|
| borrowings/views.py:26-37 | `get_queryset` passes the class-level query set to `filter_queryset` without copying it. When no condition applies, `list` evaluates that shared object, and its rows stay cached for the life of the process. | A staff caller lists with no parameters. A borrowing is created. The same listing again omits the new borrowing (and would still show a since-returned borrowing as open). | Every listing reads the current rows, as it does when the query set is copied per request. | high (not executed) | Views.ListBorrowings, Views.StaleStaffListing | Views.FreshListing, Views.FreshListingShowsCreate |

The corrected listing is the one the rest of the model builds on. `Views.GetObject`, and with it the return endpoint, runs a fresh query in the code too, because the primary-key lookup always narrows the query set.

=== FILE: books.dfy ===
/** The `Book` record of the catalogue app: its cover choices, its fixed-point
    daily fee, the bounds its database columns impose and its display string. */
module Books {
  import opened Wrappers
  import Numerals

  type BookId = nat

  /** The cover choice, stored as a one-character code with a display label. */
  datatype Cover = Soft | Hard {

    function Code(): string {
      match this
      case Soft => "1"
      case Hard => "2"
    }

    function Label(): string {
      match this
      case Soft => "SOFT"
      case Hard => "HARD"
    }
  }

  /** The width of the `cover` column. */
  const CoverMaxLength := 2

  /** Reads a stored cover code back into its choice. */
  function ParseCover(code: string): (c: Option<Cover>)
    ensures c.Some? ==> c.value.Code() == code
    ensures c.None? ==> forall k: Cover :: k.Code() != code
  {
    if code == "1" then Some(Soft)
    else if code == "2" then Some(Hard)
    else None
  }

  /** Every choice is stored under its own code, fits the column, and reads back. */
  lemma CoverCodes(c: Cover)
    ensures ParseCover(c.Code()) == Some(c)
    ensures |c.Code()| <= CoverMaxLength
    ensures forall k: Cover :: k.Code() == c.Code() <==> k == c
    ensures forall k: Cover :: k.Label() == c.Label() <==> k == c
  {
  }

  /** The fee is a decimal with `DecimalPlaces` fractional digits and at most
      `MaxDigits` digits in all; the model stores it as an integer number of
      hundredths. */
  const MaxDigits := 8
  const DecimalPlaces := 2

  function NumDigits(n: nat): (d: nat)
    ensures d >= 1
    decreases n
  {
    if n < 10 then 1 else 1 + NumDigits(n / 10)
  }

  function Pow10(k: nat): (p: nat)
    ensures p >= 1
  {
    if k == 0 then 1 else 10 * Pow10(k - 1)
  }

  function Abs(x: int): nat {
    if x < 0 then -x else x
  }

  /** A fee, in hundredths, fits the `max_digits`/`decimal_places` column. */
  predicate FeeFits(hundredths: int) {
    NumDigits(Abs(hundredths)) <= MaxDigits
  }

  lemma {:induction false} NumDigitsBelow(n: nat, k: nat)
    requires k >= 1
    ensures NumDigits(n) <= k <==> n < Pow10(k)
    decreases k
  {
    if n >= 10 {
      if k == 1 {
        assert NumDigits(n / 10) >= 1;
      } else {
        NumDigitsBelow(n / 10, k - 1);
        assert n == 10 * (n / 10) + n % 10;
        assert n / 10 < Pow10(k - 1) <==> n < 10 * Pow10(k - 1);
      }
    } else {
      assert Pow10(k) == 10 * Pow10(k - 1);
    }
  }

  /** Eight digits with two of them fractional: the stored number of
      hundredths lies strictly between -10^8 and 10^8, so the whole part has at
      most six digits. */
  lemma FeeFitsRange(hundredths: int)
    ensures FeeFits(hundredths) <==> -100_000_000 < hundredths < 100_000_000
  {
    NumDigitsBelow(Abs(hundredths), MaxDigits);
    assert Pow10(MaxDigits) == 100_000_000 by {
      assert Pow10(4) == 10_000;
    }
  }

  datatype Book = Book(
    title: string,
    author: string,
    dailyFee: int,    // hundredths
    inventory: int,   // copies available
    cover: Cover)

  /** The width of the `title` and `author` columns. */
  const NameMaxLength := 255

  /** What the database accepts as a stored book: a non-negative inventory
      (a positive-integer column), a fee within its decimal column, and names
      within their columns. */
  predicate ValidBook(b: Book) {
    && b.inventory >= 0
    && FeeFits(b.dailyFee)
    && |b.title| <= NameMaxLength
    && |b.author| <= NameMaxLength
  }

  /** The display string "<title> - <author> : <inventory> pcs". */
  function BookString(b: Book): (s: string)
    ensures |s| == |b.title| + |b.author| + 6 + |Numerals.IntToString(b.inventory)| + 4
    ensures s[..|b.title| + |b.author| + 6] == b.title + " - " + b.author + " : "
    ensures StockInString(s) == Some(b.inventory)
  {
    var count := Numerals.IntToString(b.inventory);
    var head := b.title + " - " + b.author + " : ";
    StockInStringOfParts(head, count, b.inventory);
    head + count + " pcs"
  }

  /** The characters after the last space of `s` (all of `s` without one). */
  function AfterLastSpace(s: string): (t: string)
    ensures ' ' !in t
    decreases |s|
  {
    if |s| == 0 || s[|s| - 1] == ' ' then [] else AfterLastSpace(s[..|s| - 1]) + [s[|s| - 1]]
  }

  /** Reads the copy count back out of a book's display string: the number
      between the last space and the " pcs" suffix. */
  function StockInString(s: string): Option<int> {
    if |s| >= 4 && s[|s| - 4..] == " pcs" then
      Numerals.ParseInt(AfterLastSpace(s[..|s| - 4]))
    else
      None
  }

  lemma {:induction false} AfterLastSpaceOfJoin(p: string, t: string)
    requires ' ' !in t
    ensures AfterLastSpace(p + " " + t) == t
    decreases |t|
  {
    if |t| > 0 {
      var s := p + " " + t;
      assert s[..|s| - 1] == p + " " + t[..|t| - 1];
      AfterLastSpaceOfJoin(p, t[..|t| - 1]);
      assert t == t[..|t| - 1] + [t[|t| - 1]];
    } else {
      assert (p + " " + t)[|p|] == ' ';
    }
  }

  /** The facts about "<head><count> pcs" that the display string relies on,
      for a head ending in a space. */
  lemma StockInStringOfParts(head: string, count: string, n: int)
    requires |head| >= 1 && head[|head| - 1] == ' '
    requires count == Numerals.IntToString(n)
    ensures |head + count + " pcs"| == |head| + |count| + 4
    ensures (head + count + " pcs")[..|head|] == head
    ensures StockInString(head + count + " pcs") == Some(n)
  {
    var p := head[..|head| - 1];
    assert head == p + " ";
    assert head + count + " pcs" == p + " " + count + " pcs";
    StockInStringOfJoin(p, count, n);
  }

  lemma StockInStringOfJoin(p: string, count: string, n: int)
    requires count == Numerals.IntToString(n)
    ensures StockInString(p + " " + count + " pcs") == Some(n)
  {
    var s := p + " " + count + " pcs";
    assert s[|s| - 4..] == " pcs";
    assert s[..|s| - 4] == p + " " + count;
    AfterLastSpaceOfJoin(p, count);
    Numerals.IntRoundTrip(n);
  }
}

=== FILE: borrowings.dfy ===
/** The `Borrowing` record: its dates, its two check constraints, the stock
    check run by `clean` for a new record, and its display string. */
module Borrowings {
  import opened Wrappers
  import opened Books

  /** A calendar date as a day number. */
  type Day = int
  type BorrowingId = nat
  type UserId = int

  /** `timedelta(weeks=2)`, in days. */
  const LoanPeriodDays := 14

  datatype Borrowing = Borrowing(
    borrowDate: Day,
    expectedReturnDate: Day,
    actualReturnDate: Option<Day>,
    book: BookId,
    user: UserId)

  /** Open until a return date is recorded. */
  predicate IsOpen(b: Borrowing) {
    b.actualReturnDate.None?
  }

  /** Check constraint `return_date_gte_borrow_date`. An unset actual return
      date makes its comparison NULL, which a check constraint lets through. */
  predicate ReturnDatesNotBeforeBorrow(b: Borrowing) {
    && b.expectedReturnDate >= b.borrowDate
    && (b.actualReturnDate.None? || b.actualReturnDate.value >= b.borrowDate)
  }

  /** Check constraint `expected_return_date_within_two_weeks`. */
  predicate ExpectedWithinTwoWeeks(b: Borrowing) {
    b.expectedReturnDate <= b.borrowDate + LoanPeriodDays
  }

  /** Both check constraints: what every stored borrowing satisfies. */
  predicate DatesOk(b: Borrowing) {
    ReturnDatesNotBeforeBorrow(b) && ExpectedWithinTwoWeeks(b)
  }

  /** One reason `full_clean` refuses a borrowing. */
  datatype Violation =
    | Unavailable(message: string)   // raised by `validate_inventory`, keyed "book"
    | ReturnDateBeforeBorrowDate     // `return_date_gte_borrow_date` failed
    | ExpectedBeyondTwoWeeks         // `expected_return_date_within_two_weeks` failed

  const UnavailablePrefix := "All copies of the book '"
  const UnavailableSuffix := "' are currently unavailable for borrowing"

  /** The message of the stock error; it names the book by its title. */
  function UnavailableMessage(title: string): (m: string)
    ensures |m| == |UnavailablePrefix| + |title| + |UnavailableSuffix|
    ensures m[|UnavailablePrefix|..|UnavailablePrefix| + |title|] == title
  {
    UnavailablePrefix + title + UnavailableSuffix
  }

  /** `validate_inventory`: refuses exactly the books with no copy left. */
  function ValidateInventory(book: Book): (r: Option<Violation>)
    ensures r.Some? <==> book.inventory <= 0
    ensures r.Some? ==> r.value == Unavailable(UnavailableMessage(book.title))
  {
    if book.inventory <= 0 then Some(Unavailable(UnavailableMessage(book.title))) else None
  }

  /** `clean`: the stock check runs only while the record has no primary key. */
  function Clean(book: Book, isNew: bool): (r: Option<Violation>)
    ensures r.Some? <==> isNew && book.inventory <= 0
    ensures !isNew ==> r == None
  {
    if isNew then ValidateInventory(book) else None
  }

  /** `full_clean` as run by `save`: the errors of `clean` and of both check
      constraints, collected together. The record is written only when the
      set is empty. */
  function FullClean(b: Borrowing, book: Book, isNew: bool): (vs: set<Violation>)
    ensures vs == {} <==> DatesOk(b) && (!isNew || book.inventory > 0)
    ensures ReturnDateBeforeBorrowDate in vs <==> !ReturnDatesNotBeforeBorrow(b)
    ensures ExpectedBeyondTwoWeeks in vs <==> !ExpectedWithinTwoWeeks(b)
    ensures Unavailable(UnavailableMessage(book.title)) in vs <==> isNew && book.inventory <= 0
  {
    var stock := Clean(book, isNew);
    (if stock.Some? then {stock.value} else {})
    + (if ReturnDatesNotBeforeBorrow(b) then {} else {ReturnDateBeforeBorrowDate})
    + (if ExpectedWithinTwoWeeks(b) then {} else {ExpectedBeyondTwoWeeks})
  }

  /** A record that passed `full_clean` satisfies both check constraints. */
  lemma FullCleanEnforcesConstraints(b: Borrowing, book: Book, isNew: bool)
    requires FullClean(b, book, isNew) == {}
    ensures b.borrowDate <= b.expectedReturnDate <= b.borrowDate + 14
    ensures forall d :: b.actualReturnDate == Some(d) ==> d >= b.borrowDate
  {
  }

  /** The display string "<book string> borrowed by <user string>"; the
      string form of the user model is supplied by the caller. */
  function BorrowingString(book: Book, userString: string): (s: string)
    ensures |s| == |BookString(book)| + |" borrowed by "| + |userString|
    ensures s[..|BookString(book)|] == BookString(book)
    ensures s[|BookString(book)|..|BookString(book)| + 13] == " borrowed by "
    ensures s[|s| - |userString|..] == userString
  {
    BookString(book) + " borrowed by " + userString
  }
}

=== FILE: db.dfy ===
/** The stored state: books and borrowings keyed by primary key, and the
    writes the borrowing code performs on them (`Book.save`, `Borrowing.save`). */
module Db {
  import opened Wrappers
  import opened Books
  import opened Borrowings

  datatype Library = Library(
    books: map<BookId, Book>,
    borrowings: map<BorrowingId, Borrowing>,
    nextId: BorrowingId)   // the next primary key the borrowing table hands out

  /** Why an operation was refused. A refused operation writes nothing. */
  datatype Error =
    | ValidationFailed(violations: set<Violation>)  // `full_clean` or a serializer `validate`
    | UnknownBook        // a book key that names no stored book
    | IntegrityFailed    // the database refused a book row
    | AlreadyReturned    // the return validation of the detail serializer
    | NotFound           // the borrowing is not in the caller's query set
    | BadUserId(param: string)   // a `user_id` parameter that is not an integer

  /** What holds of every state the database can be in. */
  predicate Valid(lib: Library) {
    && (forall id :: id in lib.books ==> ValidBook(lib.books[id]))
    && (forall id :: id in lib.borrowings ==>
          && id < lib.nextId
          && DatesOk(lib.borrowings[id])
          && lib.borrowings[id].book in lib.books)
  }

  /** `Book.save`: the row is written unless a column constraint refuses it. */
  function SaveBook(lib: Library, id: BookId, book: Book): (r: Result<Library, Error>)
    ensures r.Ok? <==> ValidBook(book)
    ensures r.Err? ==> r.error == IntegrityFailed
    ensures r.Ok? ==> r.value == lib.(books := lib.books[id := book])
    ensures r.Ok? && Valid(lib) ==> Valid(r.value)
  {
    if ValidBook(book) then Ok(lib.(books := lib.books[id := book])) else Err(IntegrityFailed)
  }

  /** `Borrowing.save`: `full_clean` first, then the write. `pk == None` is
      an insert under a fresh key (and the only case in which `clean`
      checks stock); `pk == Some(id)` rewrites that row. */
  function SaveBorrowing(lib: Library, b: Borrowing, pk: Option<BorrowingId>): (r: Result<(Library, BorrowingId), Error>)
    ensures r.Ok? <==> b.book in lib.books && DatesOk(b) && (pk.Some? || lib.books[b.book].inventory > 0)
    ensures b.book !in lib.books ==> r == Err(UnknownBook)
    ensures r.Err? && b.book in lib.books ==> r.error == ValidationFailed(FullClean(b, lib.books[b.book], pk.None?))
    ensures r.Ok? ==> r.value.1 == (if pk.Some? then pk.value else lib.nextId)
    ensures r.Ok? ==> r.value.0 == lib.(borrowings := lib.borrowings[r.value.1 := b],
                                        nextId := if pk.Some? then lib.nextId else lib.nextId + 1)
    ensures r.Ok? && Valid(lib) && (pk.None? || pk.value in lib.borrowings) ==> Valid(r.value.0)
  {
    if b.book !in lib.books then Err(UnknownBook)
    else
      var vs := FullClean(b, lib.books[b.book], pk.None?);
      if vs != {} then Err(ValidationFailed(vs))
      else
        match pk
        case None => Ok((lib.(borrowings := lib.borrowings[lib.nextId := b], nextId := lib.nextId + 1), lib.nextId))
        case Some(id) => Ok((lib.(borrowings := lib.borrowings[id := b]), id))
  }

  /** Re-saving an existing borrowing is never blocked by the stock of its
      book, even when no copy is left. */
  lemma ResaveIgnoresStock(lib: Library, id: BorrowingId)
    requires Valid(lib) && id in lib.borrowings
    ensures SaveBorrowing(lib, lib.borrowings[id], Some(id)) == Ok((lib, id))
  {
    assert lib.borrowings[id := lib.borrowings[id]] == lib.borrowings;
  }
}

=== FILE: lifecycle.dfy ===
/** Sequences of requests against the stored state. A refused request leaves
    the state as it was (its transaction is rolled back). Over any sequence the
    stored state stays valid, no stock goes negative, and a borrowing is closed
    at most once: once it has a return date the record never changes again. */
module Lifecycle {
  import opened Wrappers
  import opened Books
  import opened Borrowings
  import opened Db
  import Serializers
  import Views

  /** The state-changing operations. `SerializerReturnOp` is reachable only
      from code: no route of the view set (create, retrieve, list, return)
      runs the detail serializer's `update`. */
  datatype Op =
    | CreateOp(req: Views.Request, today: Day, bookId: BookId, expected: Day)
    | SerializerReturnOp(id: BorrowingId, supplied: Option<Day>)  // code only; no request reaches it
    | EndpointReturnOp(req: Views.Request, id: BorrowingId, today: Day, body: Option<Day>)

  /** The state after one request: its result when it succeeds, the old
      state when it is refused. */
  function Apply(lib: Library, op: Op): Library {
    match op
    case CreateOp(req, today, bookId, expected) =>
      (match Views.PerformCreate(lib, req, today, bookId, expected)
       case Ok((lib', _)) => lib'
       case Err(_) => lib)
    case SerializerReturnOp(id, supplied) =>
      (match Serializers.ReturnViaSerializer(lib, id, supplied)
       case Ok(lib') => lib'
       case Err(_) => lib)
    case EndpointReturnOp(req, id, today, body) =>
      (match Views.ReturnBorrowing(lib, req, id, today, body)
       case Ok(lib') => lib'
       case Err(_) => lib)
  }

  function Run(lib: Library, ops: seq<Op>): Library
    decreases |ops|
  {
    if |ops| == 0 then lib else Run(Apply(lib, ops[0]), ops[1..])
  }

  /** How a later state relates to an earlier one: no borrowing disappears;
      dates of borrowing and expected return, book and user never change; a
      closed borrowing never changes at all; the key counter never goes back. */
  predicate Evolves(lib: Library, lib': Library) {
    && lib.nextId <= lib'.nextId
    && forall id :: id in lib.borrowings ==>
         && id in lib'.borrowings
         && var b, b' := lib.borrowings[id], lib'.borrowings[id];
         && b'.borrowDate == b.borrowDate
         && b'.expectedReturnDate == b.expectedReturnDate
         && b'.book == b.book
         && b'.user == b.user
         && (!IsOpen(b) ==> b' == b)
  }

  lemma ApplyPreservesValid(lib: Library, op: Op)
    requires Valid(lib)
    ensures Valid(Apply(lib, op))
    ensures Evolves(lib, Apply(lib, op))
  {
    match op
    case CreateOp(req, today, bookId, expected) =>
      if Views.PerformCreate(lib, req, today, bookId, expected).Ok? {
        Serializers.CreatePreservesValid(lib, req.caller.user, today, bookId, expected);
      }
      assert Valid(Apply(lib, op));
    case SerializerReturnOp(id, supplied) =>
      assert Valid(Apply(lib, op));
    case EndpointReturnOp(req, id, today, body) =>
      assert Valid(Apply(lib, op));
  }

  lemma {:induction false} RunPreservesValid(lib: Library, ops: seq<Op>)
    requires Valid(lib)
    ensures Valid(Run(lib, ops))
    ensures Evolves(lib, Run(lib, ops))
    decreases |ops|
  {
    if |ops| > 0 {
      var lib1 := Apply(lib, ops[0]);
      ApplyPreservesValid(lib, ops[0]);
      RunPreservesValid(lib1, ops[1..]);
    }
  }

  /** No sequence of requests stores a negative stock. */
  lemma StockNeverNegative(lib: Library, ops: seq<Op>, bookId: BookId)
    requires Valid(lib)
    requires bookId in Run(lib, ops).books
    ensures Run(lib, ops).books[bookId].inventory >= 0
  {
    RunPreservesValid(lib, ops);
  }

  lemma {:induction false} RunAppend(lib: Library, ops1: seq<Op>, ops2: seq<Op>)
    ensures Run(lib, ops1 + ops2) == Run(Run(lib, ops1), ops2)
    decreases |ops1|
  {
    if |ops1| > 0 {
      assert (ops1 + ops2)[1..] == ops1[1..] + ops2;
      RunAppend(Apply(lib, ops1[0]), ops1[1..], ops2);
    } else {
      assert ops1 + ops2 == ops2;
    }
  }

  /** Open to closed happens at most once: a borrowing that has a return date
      after some requests keeps exactly that record whatever follows. */
  lemma ClosedAtMostOnce(lib: Library, ops1: seq<Op>, ops2: seq<Op>, id: BorrowingId)
    requires Valid(lib)
    requires id in Run(lib, ops1).borrowings && !IsOpen(Run(lib, ops1).borrowings[id])
    ensures id in Run(lib, ops1 + ops2).borrowings
    ensures Run(lib, ops1 + ops2).borrowings[id] == Run(lib, ops1).borrowings[id]
  {
    RunPreservesValid(lib, ops1);
    RunPreservesValid(Run(lib, ops1), ops2);
    RunAppend(lib, ops1, ops2);
  }

  /** A create against a book with no copy left changes nothing. */
  lemma CreateOutOfStockChangesNothing(lib: Library, req: Views.Request, today: Day, bookId: BookId, expected: Day)
    requires bookId in lib.books && lib.books[bookId].inventory <= 0
    ensures Apply(lib, CreateOp(req, today, bookId, expected)) == lib
  {
  }

  /** A worked sequence: five copies; a twelve-day borrowing takes one; a
      twenty-day one is refused; a serializer return on day three puts the
      copy back and closes the borrowing; a second return is refused. The
      same return through the endpoint closes it but leaves four copies. */
  lemma Scenario(book: Book, today: Day, user: UserId)
    requires ValidBook(book) && book.inventory == 5
    ensures var lib0 := Library(map[0 := book], map[], 0);
            var req := Views.Request(Views.Caller(user, false), Views.Query(None, None));
            var r1 := Views.PerformCreate(lib0, req, today, 0, today + 12);
            && r1 == Ok((Library(map[0 := book.(inventory := 4)],
                                 map[0 := Borrowing(today, today + 12, None, 0, user)], 1), 0))
            && Views.PerformCreate(r1.value.0, req, today, 0, today + 20)
                 == Err(ValidationFailed({ExpectedBeyondTwoWeeks}))
            && var r2 := Serializers.ReturnViaSerializer(r1.value.0, 0, Some(today + 3));
            && r2.Ok?
            && r2.value.books[0].inventory == 5
            && r2.value.borrowings[0].actualReturnDate == Some(today + 3)
            && Serializers.ReturnViaSerializer(r2.value, 0, Some(today + 4)) == Err(AlreadyReturned)
            && var r3 := Views.ReturnBorrowing(r1.value.0, req, 0, today + 3, Some(today + 3));
            && r3.Ok?
            && r3.value.books[0].inventory == 4
            && r3.value.borrowings[0].actualReturnDate == Some(today + 3)
  {
    var lib0 := Library(map[0 := book], map[], 0);
    var req := Views.Request(Views.Caller(user, false), Views.Query(None, None));
    assert Valid(lib0);
    var r1 := Views.PerformCreate(lib0, req, today, 0, today + 12);
    assert r1.Ok?;
    var lib1 := r1.value.0;
    assert lib1 == Library(map[0 := book.(inventory := 4)],
                           map[0 := Borrowing(today, today + 12, None, 0, user)], 1);
    assert Valid(lib1);
    var b := Borrowing(today, today + 20, None, 0, user);
    assert FullClean(b, lib1.books[0], true) == {ExpectedBeyondTwoWeeks};
    var r2 := Serializers.ReturnViaSerializer(lib1, 0, Some(today + 3));
    assert r2.Ok?;
    var r3 := Views.ReturnBorrowing(lib1, req, 0, today + 3, Some(today + 3));
    assert Views.GetObject(lib1, req, 0).Ok?;
    assert r3.Ok?;
  }
}

=== FILE: numerals.dfy ===
/** Decimal rendering and parsing of integers, as Python's `str(int)` prints
    them and as an integer query parameter is read back. */
module Numerals {
  import opened Wrappers

  predicate IsDigit(c: char) {
    '0' <= c <= '9'
  }

  predicate AllDigits(s: string) {
    forall i :: 0 <= i < |s| ==> IsDigit(s[i])
  }

  function DigitValue(c: char): (d: nat)
    requires IsDigit(c)
    ensures d < 10
  {
    c as int - '0' as int
  }

  function DigitChar(d: nat): (c: char)
    requires d < 10
    ensures IsDigit(c) && DigitValue(c) == d
  {
    ('0' as int + d) as char
  }

  /** The shortest decimal spelling of `n`: digits only, no leading zero. */
  function NatToString(n: nat): (s: string)
    ensures |s| >= 1
    ensures AllDigits(s)
    ensures s[0] == '0' ==> n == 0 && |s| == 1
    decreases n
  {
    if n < 10 then [DigitChar(n)] else NatToString(n / 10) + [DigitChar(n % 10)]
  }

  /** Python's `str` of an integer: a leading '-' for negative values. */
  function IntToString(n: int): (s: string)
    ensures |s| >= 1
    ensures ' ' !in s
    ensures n >= 0 <==> AllDigits(s)
  {
    if n < 0 then
      var digits := NatToString(-n);
      assert !IsDigit(("-" + digits)[0]);
      "-" + digits
    else
      NatToString(n)
  }

  /** The value of a string of decimal digits, most significant first. */
  function ParseDigits(s: string): nat
    requires AllDigits(s)
    decreases |s|
  {
    if |s| == 0 then 0 else 10 * ParseDigits(s[..|s| - 1]) + DigitValue(s[|s| - 1])
  }

  /** Reads an optionally negative decimal integer; leading zeros are allowed. */
  function ParseInt(s: string): (r: Option<int>)
    ensures r.Some? <==> (|s| >= 1 && AllDigits(s)) || (|s| >= 2 && s[0] == '-' && AllDigits(s[1..]))
    ensures r.Some? && AllDigits(s) ==> r.value >= 0
  {
    if |s| >= 1 && AllDigits(s) then Some(ParseDigits(s))
    else if |s| >= 2 && s[0] == '-' && AllDigits(s[1..]) then Some(0 - ParseDigits(s[1..]) as int)
    else None
  }

  lemma {:induction false} ParseNatToString(n: nat)
    ensures ParseDigits(NatToString(n)) == n
    decreases n
  {
    if n >= 10 {
      var s := NatToString(n);
      assert s[..|s| - 1] == NatToString(n / 10);
      ParseNatToString(n / 10);
    }
  }

  /** Printing an integer and reading it back gives the same integer. */
  lemma IntRoundTrip(n: int)
    ensures ParseInt(IntToString(n)) == Some(n)
  {
    if n < 0 {
      var digits := NatToString(-n);
      var s := "-" + digits;
      assert IntToString(n) == s;
      assert s[1..] == digits;
      assert !AllDigits(s) by {
        assert !IsDigit(s[0]);
      }
      ParseNatToString(-n);
      assert ParseInt(s) == Some(0 - ParseDigits(digits) as int);
    } else {
      ParseNatToString(n);
    }
  }

  /** A leading '0' does not change the value of a digit string. */
  lemma {:induction false} ParseDigitsLeadingZero(t: string)
    requires AllDigits(t)
    ensures AllDigits("0" + t)
    ensures ParseDigits("0" + t) == ParseDigits(t)
    decreases |t|
  {
    assert AllDigits("0" + t) by {
      forall i | 0 <= i < |"0" + t|
        ensures IsDigit(("0" + t)[i])
      {
        if i > 0 {
          assert ("0" + t)[i] == t[i - 1];
        }
      }
    }
    if |t| > 0 {
      var s := "0" + t;
      assert s[..|s| - 1] == "0" + t[..|t| - 1];
      assert s[|s| - 1] == t[|t| - 1];
      ParseDigitsLeadingZero(t[..|t| - 1]);
    } else {
      assert ("0"[..0]) == "";
    }
  }

  lemma {:induction false} ParseDigitsLeadingZeros(z: nat, t: string)
    requires AllDigits(t)
    ensures AllDigits(seq(z, _ => '0') + t)
    ensures ParseDigits(seq(z, _ => '0') + t) == ParseDigits(t)
    decreases z
  {
    if z > 0 {
      var rest := seq(z - 1, _ => '0') + t;
      ParseDigitsLeadingZeros(z - 1, t);
      assert seq(z, _ => '0') + t == "0" + rest;
      ParseDigitsLeadingZero(rest);
    } else {
      assert seq(z, _ => '0') + t == t;
    }
  }

  /** Non-canonical spellings are read as their value: any number of leading
      zeros, with or without a minus sign ("007" is 7, "-0" is 0). */
  lemma ParseIntLeadingZeros(z: nat, n: nat)
    ensures ParseInt(seq(z, _ => '0') + NatToString(n)) == Some(n)
    ensures ParseInt("-" + seq(z, _ => '0') + NatToString(n)) == Some(0 - n)
  {
    var t := seq(z, _ => '0') + NatToString(n);
    ParseDigitsLeadingZeros(z, NatToString(n));
    ParseNatToString(n);
    var s := "-" + t;
    assert s == "-" + seq(z, _ => '0') + NatToString(n);
    assert s[1..] == t;
    assert !AllDigits(s) by {
      assert !IsDigit(s[0]);
    }
  }
}

=== FILE: serializers.dfy ===
/** The two serializers that change state: the create serializer (stock check,
    insert, decrement) and the detail serializer (return check, update,
    increment). Each `update`/`create` runs in one transaction: a refused step
    leaves the state as it was. */
module Serializers {
  import opened Wrappers
  import opened Books
  import opened Borrowings
  import opened Db

  /** `BorrowingCreateSerializer.validate`: the chosen book must exist and
      have a copy left. */
  function ValidateCreate(lib: Library, bookId: BookId): (r: Result<Book, Error>)
    ensures r.Ok? <==> bookId in lib.books && lib.books[bookId].inventory > 0
    ensures r.Ok? ==> r.value == lib.books[bookId]
    ensures bookId in lib.books && lib.books[bookId].inventory <= 0 ==>
      r == Err(ValidationFailed({Unavailable(UnavailableMessage(lib.books[bookId].title))}))
  {
    if bookId !in lib.books then Err(UnknownBook)
    else
      match ValidateInventory(lib.books[bookId])
      case Some(v) => Err(ValidationFailed({v}))
      case None => Ok(lib.books[bookId])
  }

  /** The record a successful create inserts. */
  function NewBorrowing(user: UserId, today: Day, bookId: BookId, expected: Day): Borrowing {
    Borrowing(today, expected, None, bookId, user)
  }

  /** Validation followed by `BorrowingCreateSerializer.create`: insert a
      borrowing dated today for `user`, then take one copy off the book. */
  function Create(lib: Library, user: UserId, today: Day, bookId: BookId, expected: Day): (r: Result<(Library, BorrowingId), Error>)
    ensures Valid(lib) ==>
      (r.Ok? <==> bookId in lib.books && lib.books[bookId].inventory > 0
                  && today <= expected <= today + LoanPeriodDays)
    ensures bookId in lib.books && lib.books[bookId].inventory <= 0 ==>
      r == Err(ValidationFailed({Unavailable(UnavailableMessage(lib.books[bookId].title))}))
    ensures r.Ok? ==>
      && bookId in lib.books
      && r.value.1 == lib.nextId
      && r.value.0.borrowings == lib.borrowings[lib.nextId := NewBorrowing(user, today, bookId, expected)]
      && r.value.0.books == lib.books[bookId := lib.books[bookId].(inventory := lib.books[bookId].inventory - 1)]
      && r.value.0.nextId == lib.nextId + 1
  {
    var book :- ValidateCreate(lib, bookId);
    var (lib1, id) :- SaveBorrowing(lib, NewBorrowing(user, today, bookId, expected), None);
    var lib2 :- SaveBook(lib1, bookId, book.(inventory := book.inventory - 1));
    Ok((lib2, id))
  }

  lemma CreatePreservesValid(lib: Library, user: UserId, today: Day, bookId: BookId, expected: Day)
    requires Valid(lib)
    requires Create(lib, user, today, bookId, expected).Ok?
    ensures Valid(Create(lib, user, today, bookId, expected).value.0)
    ensures lib.nextId !in lib.borrowings
  {
    var (lib', _) := Create(lib, user, today, bookId, expected).value;
    var b := NewBorrowing(user, today, bookId, expected);
    assert DatesOk(b);
    assert ValidBook(lib'.books[bookId]);
    forall id | id in lib'.borrowings
      ensures id < lib'.nextId && DatesOk(lib'.borrowings[id]) && lib'.borrowings[id].book in lib'.books
    {
    }
  }

  /** `BorrowingDetailSerializer.validate`: a borrowing that already has a
      return date is refused. */
  function ValidateReturn(b: Borrowing): (r: Option<Error>)
    ensures r.Some? <==> !IsOpen(b)
    ensures r.Some? ==> r.value == AlreadyReturned
  {
    if b.actualReturnDate.Some? then Some(AlreadyReturned) else None
  }

  /** The borrowing after `update` copied the supplied return date, or kept
      its own when none is supplied. */
  function WithReturnDate(b: Borrowing, supplied: Option<Day>): (b': Borrowing)
    ensures b'.actualReturnDate == (if supplied.Some? then supplied else b.actualReturnDate)
    ensures b'.borrowDate == b.borrowDate && b'.expectedReturnDate == b.expectedReturnDate
    ensures b'.book == b.book && b'.user == b.user
  {
    match supplied
    case Some(d) => b.(actualReturnDate := Some(d))
    case None => b
  }

  /** `BorrowingDetailSerializer.update`: save the borrowing with its new
      return date, then put one copy back on its book. The copy goes back
      even when no date was supplied and the borrowing stays open. */
  function Update(lib: Library, id: BorrowingId, supplied: Option<Day>): (r: Result<Library, Error>)
    ensures id !in lib.borrowings ==> r == Err(NotFound)
    ensures Valid(lib) && id in lib.borrowings ==>
      (r.Ok? <==> supplied.None? || supplied.value >= lib.borrowings[id].borrowDate)
    ensures r.Ok? ==>
      && id in lib.borrowings
      && var b := lib.borrowings[id];
      && b.book in lib.books
      && r.value.borrowings == lib.borrowings[id := WithReturnDate(b, supplied)]
      && r.value.books == lib.books[b.book := lib.books[b.book].(inventory := lib.books[b.book].inventory + 1)]
      && r.value.nextId == lib.nextId
    ensures r.Ok? && Valid(lib) ==> Valid(r.value)
  {
    if id !in lib.borrowings then Err(NotFound)
    else
      var b := WithReturnDate(lib.borrowings[id], supplied);
      var (lib1, _) :- SaveBorrowing(lib, b, Some(id));
      // `refresh_from_db` reloads the record just written; its book is the stored one.
      var book := lib1.books[b.book];
      SaveBook(lib1, b.book, book.(inventory := book.inventory + 1))
  }

  /** The return path of the detail serializer: `validate`, then `update`. */
  function ReturnViaSerializer(lib: Library, id: BorrowingId, supplied: Option<Day>): (r: Result<Library, Error>)
    ensures id !in lib.borrowings ==> r == Err(NotFound)
    ensures id in lib.borrowings && !IsOpen(lib.borrowings[id]) ==> r == Err(AlreadyReturned)
    ensures Valid(lib) ==>
      (r.Ok? <==> id in lib.borrowings && IsOpen(lib.borrowings[id])
                  && (supplied.None? || supplied.value >= lib.borrowings[id].borrowDate))
    ensures r.Ok? ==> IsOpen(lib.borrowings[id]) && r == Update(lib, id, supplied)
  {
    if id !in lib.borrowings then Err(NotFound)
    else
      match ValidateReturn(lib.borrowings[id])
      case Some(e) => Err(e)
      case None => Update(lib, id, supplied)
  }

  /** Creating a borrowing and returning it through the serializer puts
      every book back to its stock before the create. */
  lemma CreateThenReturnRestoresStock(lib: Library, user: UserId, today: Day, bookId: BookId, expected: Day, supplied: Option<Day>)
    requires Valid(lib)
    requires Create(lib, user, today, bookId, expected).Ok?
    requires supplied.None? || supplied.value >= today
    ensures var (lib1, id) := Create(lib, user, today, bookId, expected).value;
            && ReturnViaSerializer(lib1, id, supplied).Ok?
            && ReturnViaSerializer(lib1, id, supplied).value.books == lib.books
  {
    var (lib1, id) := Create(lib, user, today, bookId, expected).value;
    CreatePreservesValid(lib, user, today, bookId, expected);
    var lib2 := ReturnViaSerializer(lib1, id, supplied).value;
    assert lib2.books == lib.books;
  }

  /** Once a date has been supplied, the borrowing is closed and every later
      return through the serializer is refused. */
  lemma ReturnWithDateCloses(lib: Library, id: BorrowingId, d: Day, later: Option<Day>)
    requires ReturnViaSerializer(lib, id, Some(d)).Ok?
    ensures ReturnViaSerializer(lib, id, Some(d)).value.borrowings[id].actualReturnDate == Some(d)
    ensures ReturnViaSerializer(ReturnViaSerializer(lib, id, Some(d)).value, id, later) == Err(AlreadyReturned)
  {
  }

  /** A return without a date leaves the borrowing open yet restocks its
      book, so it can be repeated, adding a copy each time. */
  lemma ReturnWithoutDateRepeats(lib: Library, id: BorrowingId)
    requires Valid(lib) && id in lib.borrowings && IsOpen(lib.borrowings[id])
    ensures var bookId := lib.borrowings[id].book;
            var r1 := ReturnViaSerializer(lib, id, None);
            && r1.Ok?
            && IsOpen(r1.value.borrowings[id])
            && var r2 := ReturnViaSerializer(r1.value, id, None);
            && r2.Ok?
            && IsOpen(r2.value.borrowings[id])
            && r2.value.books[bookId].inventory == lib.books[bookId].inventory + 2
  {
    var r1 := ReturnViaSerializer(lib, id, None);
    assert r1.Ok?;
    assert Valid(r1.value);
  }
}

=== FILE: views.dfy ===
/** The borrowing view set: which borrowings a request may see, the create
    action and the return endpoint. Authentication, routing, response codes
    and the notification sent after a create are not modelled. */
module Views {
  import opened Wrappers
  import Numerals
  import opened Books
  import opened Borrowings
  import opened Db
  import Serializers

  datatype Caller = Caller(user: UserId, isStaff: bool)

  /** The raw `is_active` and `user_id` query parameters, when present. */
  datatype Query = Query(isActive: Option<string>, userId: Option<string>)

  datatype Request = Request(caller: Caller, query: Query)

  /** A query parameter that is present and non-empty; its text is not read. */
  predicate Truthy(p: Option<string>) {
    p.Some? && p.value != ""
  }

  /** The only failing query: a staff caller whose `user_id` is not a number. */
  predicate QueryOk(req: Request) {
    !(req.caller.isStaff && Truthy(req.query.userId) && Numerals.ParseInt(req.query.userId.value).None?)
  }

  /** Which borrowings a request is shown, stated per record: open ones only
      when `is_active` is given; a non-staff caller only their own; a staff
      caller the named user's when `user_id` is given, everyone's otherwise. */
  predicate Shows(req: Request, b: Borrowing) {
    && (Truthy(req.query.isActive) ==> IsOpen(b))
    && (if !req.caller.isStaff then b.user == req.caller.user
        else Truthy(req.query.userId) ==> Numerals.ParseInt(req.query.userId.value) == Some(b.user))
  }

  function OpenOnly(rows: map<BorrowingId, Borrowing>): map<BorrowingId, Borrowing> {
    map id | id in rows && IsOpen(rows[id]) :: rows[id]
  }

  function OwnedBy(rows: map<BorrowingId, Borrowing>, user: UserId): map<BorrowingId, Borrowing> {
    map id | id in rows && rows[id].user == user :: rows[id]
  }

  /** `filter_queryset`: the open-only filter, then the user filter. */
  function FilterBorrowings(rows: map<BorrowingId, Borrowing>, req: Request): (r: Result<map<BorrowingId, Borrowing>, Error>)
    ensures r.Ok? <==> QueryOk(req)
    ensures r.Ok? ==> forall id :: id in r.value <==> id in rows && Shows(req, rows[id])
    ensures r.Ok? ==> forall id :: id in r.value ==> r.value[id] == rows[id]
  {
    var rows1 := if Truthy(req.query.isActive) then OpenOnly(rows) else rows;
    if !req.caller.isStaff then Ok(OwnedBy(rows1, req.caller.user))
    else if Truthy(req.query.userId) then
      match Numerals.ParseInt(req.query.userId.value)
      case None => Err(BadUserId(req.query.userId.value))
      case Some(u) => Ok(OwnedBy(rows1, u))
    else Ok(rows1)
  }

  /** Filtering a filtered set again changes nothing. */
  lemma FilterIdempotent(rows: map<BorrowingId, Borrowing>, req: Request)
    requires FilterBorrowings(rows, req).Ok?
    ensures FilterBorrowings(FilterBorrowings(rows, req).value, req) == FilterBorrowings(rows, req)
  {
    var once := FilterBorrowings(rows, req).value;
    var twice := FilterBorrowings(once, req).value;
    forall id | id in once
      ensures id in twice
    {
      assert once[id] == rows[id];
    }
    assert twice == once;
  }

  /** `get_queryset`: every borrowing, filtered for the request. */
  function Queryset(lib: Library, req: Request): Result<map<BorrowingId, Borrowing>, Error> {
    FilterBorrowings(lib.borrowings, req)
  }

  /** What `list` and `get_object` look at: the framework filters the
      already-filtered query set a second time, to the same result. */
  function VisibleBorrowings(lib: Library, req: Request): (r: Result<map<BorrowingId, Borrowing>, Error>)
    ensures r == FilterBorrowings(lib.borrowings, req)
  {
    var rows :- Queryset(lib, req);
    FilterIdempotent(lib.borrowings, req);
    FilterBorrowings(rows, req)
  }

  /** A caller who is not staff is shown exactly their own borrowings, and
      whatever `user_id` they pass is ignored. */
  lemma NonStaffSeesOwn(rows: map<BorrowingId, Borrowing>, req: Request, otherUserId: Option<string>)
    requires !req.caller.isStaff && !Truthy(req.query.isActive)
    ensures FilterBorrowings(rows, req) == Ok(OwnedBy(rows, req.caller.user))
    ensures FilterBorrowings(rows, req.(query := req.query.(userId := otherUserId))) == FilterBorrowings(rows, req)
  {
  }

  /** Staff without `user_id` see every borrowing. */
  lemma StaffSeesAll(rows: map<BorrowingId, Borrowing>, req: Request)
    requires req.caller.isStaff && !Truthy(req.query.isActive) && !Truthy(req.query.userId)
    ensures FilterBorrowings(rows, req) == Ok(rows)
  {
  }

  /** Staff passing a user's id see exactly that user's borrowings. */
  lemma StaffFiltersByUser(rows: map<BorrowingId, Borrowing>, req: Request, u: UserId)
    requires req.caller.isStaff && !Truthy(req.query.isActive)
    requires req.query.userId == Some(Numerals.IntToString(u))
    ensures FilterBorrowings(rows, req) == Ok(OwnedBy(rows, u))
  {
    Numerals.IntRoundTrip(u);
  }

  /** Any non-empty `is_active`, even "False", keeps only open borrowings. */
  lemma IsActiveFalseStillFilters(rows: map<BorrowingId, Borrowing>, req: Request)
    requires req.query.isActive == Some("False") && QueryOk(req)
    ensures forall id :: id in FilterBorrowings(rows, req).value ==> IsOpen(rows[id])
  {
  }

  /** A listing of the borrowings the request is shown, read from the
      current state on every request. This is what `list` gives whenever the
      filter narrows the query set. It is also what every listing would give
      if `get_queryset` started from a fresh copy of the class-level query
      set. */
  function FreshListing(lib: Library, req: Request): (r: Result<map<BorrowingId, Borrowing>, Error>)
    ensures r.Ok? <==> QueryOk(req)
    ensures r.Ok? ==> forall id :: id in r.value <==> id in lib.borrowings && Shows(req, lib.borrowings[id])
    ensures r.Ok? ==> forall id :: id in r.value ==> r.value[id] == lib.borrowings[id]
  {
    VisibleBorrowings(lib, req)
  }

  /** The filter applies no condition: a staff caller with neither parameter.
      `filter_queryset` then hands back the class-level query set itself. */
  predicate LeavesUnfiltered(req: Request) {
    req.caller.isStaff && !Truthy(req.query.isActive) && !Truthy(req.query.userId)
  }

  /** The rows cached on the class-level query set of one process, once a
      listing has evaluated it. */
  type ListCache = Option<map<BorrowingId, Borrowing>>

  /** `list` as written. `get_queryset` passes the class-level query set to
      the filter without copying it. When no condition applies, that shared
      object is listed, and evaluating it caches its rows for the rest of the
      process. So the first such listing sees the current rows, and every
      later one sees that snapshot. Any filtered listing runs a fresh query. */
  function ListBorrowings(lib: Library, cache: ListCache, req: Request): (r: (Result<map<BorrowingId, Borrowing>, Error>, ListCache))
    ensures !LeavesUnfiltered(req) ==> r == (FreshListing(lib, req), cache)
    ensures LeavesUnfiltered(req) && cache.None? ==> r == (Ok(lib.borrowings), Some(lib.borrowings))
    ensures LeavesUnfiltered(req) && cache.Some? ==> r == (Ok(cache.value), cache)
    ensures r.0.Ok? <==> QueryOk(req)
  {
    if !LeavesUnfiltered(req) then (FreshListing(lib, req), cache)
    else
      match cache
      case Some(rows) => (Ok(rows), cache)
      case None =>
        var rows := FreshListing(lib, req).value;
        assert rows == lib.borrowings;
        (Ok(rows), Some(rows))
  }

  /** The stale listing: a staff caller lists with no parameters, someone
      creates a borrowing, and the same listing again omits it, although a
      fresh listing shows it. */
  lemma StaleStaffListing(lib: Library, staff: Request, creator: Request, today: Day, bookId: BookId, expected: Day)
    requires Valid(lib)
    requires LeavesUnfiltered(staff)
    requires PerformCreate(lib, creator, today, bookId, expected).Ok?
    ensures var (first, cache) := ListBorrowings(lib, None, staff);
            var (lib', id) := PerformCreate(lib, creator, today, bookId, expected).value;
            && ListBorrowings(lib', cache, staff).0 == first
            && first.Ok? && id !in first.value
            && id in lib'.borrowings
            && FreshListing(lib', staff).Ok? && id in FreshListing(lib', staff).value
  {
    Serializers.CreatePreservesValid(lib, creator.caller.user, today, bookId, expected);
    var (lib', id) := PerformCreate(lib, creator, today, bookId, expected).value;
    assert id == lib.nextId;
    assert Shows(staff, lib'.borrowings[id]);
  }

  /** With a fresh listing, the same sequence shows the new borrowing. */
  lemma FreshListingShowsCreate(lib: Library, staff: Request, creator: Request, today: Day, bookId: BookId, expected: Day)
    requires LeavesUnfiltered(staff)
    requires PerformCreate(lib, creator, today, bookId, expected).Ok?
    ensures var (lib', id) := PerformCreate(lib, creator, today, bookId, expected).value;
            FreshListing(lib', staff) == Ok(lib'.borrowings) && id in lib'.borrowings
  {
    var (lib', id) := PerformCreate(lib, creator, today, bookId, expected).value;
    StaffSeesAll(lib'.borrowings, staff);
  }

  /** `get_object`: the borrowing under `pk`, looked up among those the
      request is shown; any other key is not found. */
  function GetObject(lib: Library, req: Request, pk: BorrowingId): (r: Result<Borrowing, Error>)
    ensures r.Ok? <==> QueryOk(req) && pk in lib.borrowings && Shows(req, lib.borrowings[pk])
    ensures r.Ok? ==> r.value == lib.borrowings[pk]
    ensures QueryOk(req) && !r.Ok? ==> r == Err(NotFound)
  {
    var rows :- VisibleBorrowings(lib, req);
    if pk in rows then Ok(rows[pk]) else Err(NotFound)
  }

  /** `perform_create`: the create serializer saved with the requesting
      user as the borrower. */
  function PerformCreate(lib: Library, req: Request, today: Day, bookId: BookId, expected: Day): (r: Result<(Library, BorrowingId), Error>)
    ensures r.Ok? ==> r.value.1 in r.value.0.borrowings && r.value.0.borrowings[r.value.1].user == req.caller.user
    ensures r.Ok? ==> r.value.1 in r.value.0.borrowings && r.value.0.borrowings[r.value.1] == Serializers.NewBorrowing(req.caller.user, today, bookId, expected)
    ensures Valid(lib) ==>
      (r.Ok? <==> bookId in lib.books && lib.books[bookId].inventory > 0
                  && today <= expected <= today + LoanPeriodDays)
  {
    Serializers.Create(lib, req.caller.user, today, bookId, expected)
  }

  /** `return_borrowing`: find the borrowing among those the request is
      shown, refuse it if already returned, stamp today's date and save it.
      Any date in the body is parsed but never used, and the serializer is
      never saved, so the book's stock is not touched. */
  function ReturnBorrowing(lib: Library, req: Request, pk: BorrowingId, today: Day, body: Option<Day>): (r: Result<Library, Error>)
    ensures GetObject(lib, req, pk).Err? ==> r == Err(GetObject(lib, req, pk).error)
    ensures GetObject(lib, req, pk).Ok? && !IsOpen(lib.borrowings[pk]) ==> r == Err(AlreadyReturned)
    ensures Valid(lib) ==>
      (r.Ok? <==> GetObject(lib, req, pk).Ok? && IsOpen(lib.borrowings[pk])
                  && today >= lib.borrowings[pk].borrowDate)
    ensures r.Ok? ==>
      && pk in lib.borrowings
      && r.value.books == lib.books
      && r.value.nextId == lib.nextId
      && r.value.borrowings == lib.borrowings[pk := lib.borrowings[pk].(actualReturnDate := Some(today))]
    ensures r.Ok? && Valid(lib) ==> Valid(r.value)
  {
    var b :- GetObject(lib, req, pk);
    if Serializers.ValidateReturn(b).Some? then Err(AlreadyReturned)
    else
      var (lib1, _) :- SaveBorrowing(lib, b.(actualReturnDate := Some(today)), Some(pk));
      Ok(lib1)
  }

  /** The body of a return request has no effect on the outcome. */
  lemma ReturnIgnoresBody(lib: Library, req: Request, pk: BorrowingId, today: Day, body1: Option<Day>, body2: Option<Day>)
    ensures ReturnBorrowing(lib, req, pk, today, body1) == ReturnBorrowing(lib, req, pk, today, body2)
  {
  }

  /** A caller who is not staff cannot return someone else's borrowing: it
      is not found among the borrowings they are shown. */
  lemma NonStaffCannotReturnOthers(lib: Library, req: Request, pk: BorrowingId, today: Day, body: Option<Day>)
    requires !req.caller.isStaff
    requires pk in lib.borrowings && lib.borrowings[pk].user != req.caller.user
    ensures ReturnBorrowing(lib, req, pk, today, body) == Err(NotFound)
  {
  }
}

=== FILE: wrappers.dfy ===
/** Failure-carrying datatypes shared by the whole model. */
module Wrappers {

  /** A value that may be absent: a nullable column or an optional request field. */
  datatype Option<+T> = None | Some(value: T)

  /** The outcome of an operation that either succeeds with a value or is
      rejected with an error. Usable with `:-`. */
  datatype Result<+T, +E> = Ok(value: T) | Err(error: E) {

    predicate IsFailure() {
      Err?
    }

    function PropagateFailure<U>(): Result<U, E>
      requires Err?
    {
      Err(error)
    }

    function Extract(): T
      requires Ok?
    {
      value
    }
  }
}
